=== FILE: README.md ===
# Portfolio site logic in Dafny

A model of the three pieces of logic in the portfolio site's `App.js`, a
React page with a project list and a contact form:

- **the e-mail check** `validateEmail`, the regular expression
  `^[^\s@]+@[^\s@]+\.[^\s@]+$`, modelled as a scanner (`EmailPattern.ValidateEmail`).
  It is proved equal to two other definitions. One reads the regular expression
  literally (`MatchesPattern`): concatenation is a split and `+` is "one or more".
  The other is a plain-words description (`Characterised`): `local@domain`, with
  no `@` or whitespace in either part, a non-empty `local`, and a `.` strictly
  inside `domain`. Whitespace is the ECMAScript `\s` class, written out code
  point by code point.
- **the contact form** (`ContactForm`). `handleInputChange` is a field update.
  `handleSubmit` is a pure transition from the form state and the outcome the
  POST would have had: a response with `ok`, a response without it, or a
  rejected `fetch`. It returns the new state and the request body it posted,
  if any. `Run` folds a session of edits and submits. It proves that no form
  failing validation is ever posted, that every form passing it is, and that
  each edit and submit moves the session's state as the single transitions do.
- **the project list** (`ProjectList`, `ProjectCard`). The outcome of the GET
  becomes the list given to `setProjects`. The list becomes the loading text or
  one card per record. Each card's language badge is coloured from the
  seventeen-entry table. The order of the operations is kept: `Cpp` is replaced
  by `C++` before the colour lookup. So a raw `Cpp` repository gets the grey
  default, and the table's `Cpp` entry is never used. `CppRecordGetsDefaultColor`
  and `CppEntryUnreachable` prove this behaviour of the code as written.

Files: `wrappers.dfy` (an `Option` type), `email_pattern.dfy`,
`contact_form.dfy`, `project_card.dfy`, `project_list.dfy`.

## Model

| member | source | states |
|---|---|---|
| EmailPattern.ValidateEmail | App.js:152-155 | the check accepts a string exactly when it is `local@domain` with neither part holding `@` or whitespace, `local` non-empty and a `.` strictly inside `domain` |
| EmailPattern.ScanFollowsShape | App.js:153-154 | after any prefix, the scanner is in the state the prefix's shape calls for (start, local part, `@` seen, domain stages, reject) |
| EmailPattern.MatchesDomainIff | App.js:153 | `[^\s@]+\.[^\s@]+` matches exactly the `@`- and whitespace-free strings with a `.` that is neither first nor last |
| EmailPattern.RegexAgreesWithCharacterisation | App.js:153 | the regular expression read literally and the plain-words description accept the same strings |
| EmailPattern.ValidateEmailIsRegexTest | App.js:153-154 | `validateEmail` accepts exactly the strings the whole-string regular expression matches |
| EmailPattern.ValidateEmailFacts | App.js:153 | accepted strings are exactly those with one `@` that is not first, no whitespace anywhere, and a `.` strictly inside the part after `@` |
| EmailPattern.ValidateEmailSplit | App.js:153 | `local + "@" + domain` is accepted exactly when `local` is non-empty, neither part holds `@` or whitespace, and `domain` has an inner dot |
| EmailPattern.ValidateEmailAcceptsExamples | App.js:153 | `a@b.c`, `a@b..c` and `first.last@mail.example.org` are accepted |
| EmailPattern.ValidateEmailRejectsExamples | App.js:153 | `bad`, `a@.bc`, `a@bc.`, `@b.c`, `a@b@c.d` and `a b@c.d` are refused |
| ContactForm.UpdateField | App.js:144-150 | the named field takes the new value, the other two fields keep theirs, the status is untouched |
| ContactForm.UpdateFieldOverwrites | App.js:144-150 | writing a field twice keeps only the second value |
| ContactForm.UpdateFieldCommutes | App.js:144-150 | updates to different fields commute |
| ContactForm.UpdateFieldSameValue | App.js:144-150 | writing back a field's current value leaves the state unchanged |
| ContactForm.Submit | App.js:157-195 | a request is posted exactly when every field is non-empty and the address is well formed, and its body is the form; the form changes only to all-empty and only after an ok response; the status is one of the five messages, and it is the success message exactly after an ok response |
| ContactForm.SubmitWithEmptyField | App.js:162-165 | any empty field gives "All fields are required", no request and an unchanged form, whatever the address or the send outcome |
| ContactForm.SubmitWithBadEmail | App.js:167-171 | all fields filled and a malformed address give "Invalid email format", no request and an unchanged form |
| ContactForm.SubmitPostable | App.js:173-194 | a valid form is posted as it stands; ok clears the fields with "Message sent successfully!", a non-ok response gives "Failed to send message.", a transport error gives "An error occurred. Please try again.", both keeping the fields |
| ContactForm.RejectedSubmitIsStable | App.js:162-171 | a rejected submit does not depend on the send outcome, and submitting again gives the same result |
| ContactForm.SubmitAfterSuccess | App.js:180-186 | after a successful send, a second submit posts nothing and says "All fields are required" |
| ContactForm.StatusLine | App.js:246 | the status paragraph appears exactly when the status is non-empty, and it shows the status |
| ContactForm.SubmitShowsStatus | App.js:157-195 | every submit leaves a visible status line |
| ContactForm.SubmitBadExample | App.js:167-171 | `{name: "A", email: "bad", message: "hi"}` gives "Invalid email format" and posts nothing |
| ContactForm.Run | App.js:144-195 | over any session of edits and submits, every posted body passes validation, there is at most one request per submit, and the status is the initial one until the first submit and a submit's afterwards |
| ContactForm.RunPostsValidSubmit | App.js:173-178 | a submit of a form passing both checks appends exactly that form to the session's requests |
| ContactForm.RunSkipsInvalidSubmit | App.js:162-171 | a submit of a form failing a check adds no request |
| ContactForm.RunStep | App.js:144-195 | each further edit changes the session's state as the field update does, and each further submit as the submit transition does |
| ContactForm.RunFillAndSend | App.js:144-186 | from the initial state, typing a non-empty name and message and a well-formed address and then submitting posts exactly that form, once; an ok response leaves the fields empty with the success message |
| ContactForm.NoStatusBeforeFirstSubmit | App.js:137-142 | from the initial empty form and empty status, no status line is shown before the first submit, whatever was typed |
| ProjectCard.ColorOf | App.js:37-58 | the colour is the table entry for a label in the table, and the grey `#6a737d` exactly for a label outside it |
| ProjectCard.BadgeOf | App.js:36-61 | no badge for an absent or empty language; otherwise the language as text, on its table colour or on grey when it is not in the table |
| ProjectCard.BadgeColorExamples | App.js:37-58 | `Python` and `Cpp` get their table colours; `C++` and `Haskell` get grey; an empty or absent language gets no badge |
| ProjectList.LoadProjects | App.js:86-101 | an ok response with a parsed body gives that body unchanged; a non-ok status, an unparsable body or a network error gives the empty list |
| ProjectList.DisplayLanguage | App.js:122 | the value `Cpp` becomes `C++`; every other value, absent included, passes through |
| ProjectList.ToCard | App.js:117-126 | key, title, stars, forks and url are copied from the record; a null or empty description becomes "No description available"; the language goes through the `Cpp` substitution |
| ProjectList.View | App.js:113-129 | the loading text exactly for an empty list; otherwise one card per record, card `i` made from record `i` |
| ProjectList.RepoBadge | App.js:57-61 | a record gets a badge exactly when its raw language is non-empty; the badge text is the language after the `Cpp` substitution, and its colour is the table entry for that substituted text, or grey when the text is not in the table |
| ProjectList.FailureLooksLikeEmpty | App.js:89-115 | every failed load shows the same thing as an empty successful load: the loading text |
| ProjectList.SuccessShowsEveryRecord | App.js:92-127 | a successful non-empty load shows the cards of all records in the provider's order |
| ProjectList.ViewDistributes | App.js:117-127 | for non-empty `a` and `b`, the cards of `a + b` are the cards of `a` followed by those of `b` |
| ProjectList.DistinctIdsDistinctKeys | App.js:119 | for a non-empty list, records with distinct ids get cards with distinct keys |
| ProjectList.CardCollapses | App.js:121-122 | a null, an empty and a placeholder description give the same card; so do the languages `Cpp` and `C++` |
| ProjectList.CppRecordGetsDefaultColor | App.js:122 | a raw `Cpp` record shows a `C++` badge in the grey default, although the table (line 41) maps `Cpp` to `#f34b7d` |
| ProjectList.CppEntryUnreachable | App.js:41 | no card's badge has the text `Cpp`, and no badge is coloured `#f34b7d` |
| ProjectList.ExampleRecord | App.js:117-126 | the record `{id 1, "foo", null, "Cpp", 3, 1, "https://x/foo"}` shows one card titled `foo` with the placeholder description, a grey `C++` badge, 3 stars and 1 fork |
| ProjectList.ServerErrorExample | App.js:89-99 | a 500 response shows the loading text |

## Left out

- The network calls themselves are not modelled: the GET and POST (App.js:88, 174-178), JSON parsing and serialisation, and `console.error`. Each is replaced by the outcome it would have had, given as a parameter.
- Response bodies that parse but are not a list of repository records (for example a JSON object) are not modelled. The body is either a list of records or unparsable.
- React is not modelled: hooks, JSX markup, styling, the router and the home and not-found views. Only what they display is modelled: the status line, the loading text or the cards, and the badge.
- Overlapping requests are not modelled: a double submit, or a late GET response that overwrites a newer one. This is about concurrency; every transition here is sequential.
- The browser's own form validation (the `required` attributes and `type='email'`) is not modelled. It can stop a submit before `handleSubmit` runs; the model calls `handleSubmit` directly.
- `handleInputChange` is modelled only for the three input names in the markup. An arbitrary `e.target.name` would add a new key to the form object.
- JavaScript object-prototype keys in `languageColors[language]` (such as `constructor`) are not modelled. The table is modelled as a closed map of its seventeen entries.
- The rendering of the counts as text (`{stars} ⭐`) is not modelled. The card keeps the numbers.
- EmailPattern.IsSpace: follows the `\s` class of current Unicode versions (Zs without U+180E). Older engines that count U+180E as whitespace differ on that one code point.
- The other `App.js` in the repository, `github-portfolio/src/App.js`, is not modelled. It only toggles a dark-mode flag.

=== FILE: contact_form.dfy ===
/**
 The contact form (`Contact` in App.js): three text fields, a status line,
 `handleInputChange` as a field update and `handleSubmit` as a pure
 transition. The network call is replaced by the outcome it would have had,
 and the transition reports the request body it posts, if it posts one.
 */
module ContactForm {
  import opened Wrappers
  import EmailPattern

  /** The three inputs, by their `name` attribute. */
  datatype Field = Name | Email | Message

  datatype Form = Form(name: string, email: string, message: string) {

    function Get(f: Field): string {
      match f
      case Name => name
      case Email => email
      case Message => message
    }

    /** Some field is the empty string, which JavaScript treats as false. */
    predicate HasEmptyField() {
      name == "" || email == "" || message == ""
    }
  }

  const EmptyForm := Form("", "", "")

  datatype ContactState = ContactState(form: Form, status: string)

  /** The state the page starts in: empty fields, no status. */
  const Initial := ContactState(EmptyForm, "")

  const AllFieldsRequired := "All fields are required"
  const InvalidEmailFormat := "Invalid email format"
  const MessageSent := "Message sent successfully!"
  const SendFailed := "Failed to send message."
  const SendError := "An error occurred. Please try again."

  /** Every status text a submit can leave behind. */
  const SubmitStatuses := {AllFieldsRequired, InvalidEmailFormat, MessageSent, SendFailed, SendError}

  /** How the POST would end: a response with `ok` set (a 2xx status), a
      response without it, or a rejected `fetch`. */
  datatype SendOutcome = ResponseOk | ResponseNotOk | TransportError

  /** The state after a submit and the body of the POST it made, if any. */
  datatype SubmitResult = SubmitResult(state: ContactState, request: Option<Form>)

  /** The forms a submit posts, stated through the plain-words address
      description rather than the executable check. */
  ghost predicate Postable(form: Form) {
    !form.HasEmptyField() && EmailPattern.Characterised(form.email)
  }

  /** `handleInputChange` (App.js:144-150): the named field takes the new
      value; the other two fields and the status are kept. */
  function UpdateField(st: ContactState, f: Field, value: string): (r: ContactState)
    ensures r.form.Get(f) == value
    ensures forall g :: g != f ==> r.form.Get(g) == st.form.Get(g)
    ensures r.status == st.status
  {
    var form := st.form;
    var form' :=
      match f
      case Name => form.(name := value)
      case Email => form.(email := value)
      case Message => form.(message := value);
    st.(form := form')
  }

  /** `handleSubmit` (App.js:157-195). The emptiness check runs first, then
      the address check; either failure sets its status and posts nothing.
      Otherwise the form is posted and `outcome` picks the status; only a
      successful response clears the fields. */
  function Submit(st: ContactState, outcome: SendOutcome): (r: SubmitResult)
    ensures r.request.Some? <==> Postable(st.form)
    ensures r.request.Some? ==> r.request.value == st.form
    ensures r.state.form == st.form || (r.state.form == EmptyForm && r.request.Some? && outcome == ResponseOk)
    ensures r.state.status in SubmitStatuses
    ensures r.state.status == MessageSent <==> r.request.Some? && outcome == ResponseOk
  {
    var form := st.form;
    if form.HasEmptyField() then
      SubmitResult(st.(status := AllFieldsRequired), None)
    else if !EmailPattern.ValidateEmail(form.email) then
      SubmitResult(st.(status := InvalidEmailFormat), None)
    else
      var st' :=
        match outcome
        case ResponseOk => ContactState(EmptyForm, MessageSent)
        case ResponseNotOk => st.(status := SendFailed)
        case TransportError => st.(status := SendError);
      SubmitResult(st', Some(form))
  }

  /** The `{status && <p>{status}</p>}` line: shown only for a non-empty
      status. */
  function StatusLine(status: string): (line: Option<string>)
    ensures line.Some? <==> status != ""
    ensures line.Some? ==> line.value == status
  {
    if status == "" then None else Some(status)
  }

  // ---------------------------------------------------------------------
  // Field updates

  /** Writing a field twice keeps only the second value. */
  lemma UpdateFieldOverwrites(st: ContactState, f: Field, v1: string, v2: string)
    ensures UpdateField(UpdateField(st, f, v1), f, v2) == UpdateField(st, f, v2)
  {
  }

  /** Updates of different fields commute. */
  lemma UpdateFieldCommutes(st: ContactState, f: Field, g: Field, v: string, w: string)
    requires f != g
    ensures UpdateField(UpdateField(st, f, v), g, w) == UpdateField(UpdateField(st, g, w), f, v)
  {
  }

  /** Writing back a field's current value changes nothing. */
  lemma UpdateFieldSameValue(st: ContactState, f: Field)
    ensures UpdateField(st, f, st.form.Get(f)) == st
  {
  }

  // ---------------------------------------------------------------------
  // Submit, case by case

  /** An empty field: "All fields are required", nothing posted, form kept,
      whatever the address looks like and however a send would have ended. */
  lemma SubmitWithEmptyField(st: ContactState, outcome: SendOutcome)
    requires st.form.HasEmptyField()
    ensures Submit(st, outcome) == SubmitResult(ContactState(st.form, AllFieldsRequired), None)
  {
  }

  /** All fields filled but a malformed address: "Invalid email format",
      nothing posted, form kept. */
  lemma SubmitWithBadEmail(st: ContactState, outcome: SendOutcome)
    requires !st.form.HasEmptyField()
    requires !EmailPattern.Characterised(st.form.email)
    ensures Submit(st, outcome) == SubmitResult(ContactState(st.form, InvalidEmailFormat), None)
  {
  }

  /** A postable form is posted as it stands; the response decides the
      status, and only a successful one clears the fields. */
  lemma SubmitPostable(st: ContactState, outcome: SendOutcome)
    requires Postable(st.form)
    ensures Submit(st, outcome).request == Some(st.form)
    ensures outcome == ResponseOk ==> Submit(st, outcome).state == ContactState(EmptyForm, MessageSent)
    ensures outcome == ResponseNotOk ==> Submit(st, outcome).state == ContactState(st.form, SendFailed)
    ensures outcome == TransportError ==> Submit(st, outcome).state == ContactState(st.form, SendError)
  {
  }

  /** A rejected submit does not depend on the send outcome, and repeating
      it gives the same result again. */
  lemma RejectedSubmitIsStable(st: ContactState, o1: SendOutcome, o2: SendOutcome)
    requires !Postable(st.form)
    ensures Submit(st, o1) == Submit(st, o2)
    ensures Submit(Submit(st, o1).state, o2) == Submit(st, o1)
  {
  }

  /** After a successful send the fields are empty, so an immediate second
      submit posts nothing and asks for all fields. */
  lemma SubmitAfterSuccess(st: ContactState, outcome: SendOutcome)
    requires Postable(st.form)
    ensures Submit(Submit(st, ResponseOk).state, outcome)
      == SubmitResult(ContactState(EmptyForm, AllFieldsRequired), None)
  {
  }

  /** Every submit leaves a status line on screen. */
  lemma SubmitShowsStatus(st: ContactState, outcome: SendOutcome)
    ensures StatusLine(Submit(st, outcome).state.status).Some?
  {
  }

  /** Worked example: `{name: "A", email: "bad", message: "hi"}`. */
  lemma SubmitBadExample(outcome: SendOutcome)
    ensures Submit(ContactState(Form("A", "bad", "hi"), ""), outcome)
      == SubmitResult(ContactState(Form("A", "bad", "hi"), InvalidEmailFormat), None)
  {
    EmailPattern.ValidateEmailRejectsExamples();
  }

  // ---------------------------------------------------------------------
  // A session: a sequence of user actions on one page view

  datatype Event = Edit(field: Field, value: string) | Send(outcome: SendOutcome)

  function Submits(events: seq<Event>): nat {
    if events == [] then 0
    else Submits(events[..|events|-1]) + (if events[|events|-1].Send? then 1 else 0)
  }

  /** Runs `events` from `st`; returns the final state and the bodies
      posted, in order. Nothing that fails validation is ever posted, at
      most one request goes out per submit, and the status is the starting
      one until the first submit and a submit's from then on. */
  function Run(st: ContactState, events: seq<Event>): (r: (ContactState, seq<Form>))
    ensures forall k :: 0 <= k < |r.1| ==> Postable(r.1[k])
    ensures |r.1| <= Submits(events)
    ensures Submits(events) == 0 ==> r.0.status == st.status
    ensures Submits(events) > 0 ==> r.0.status in SubmitStatuses
    decreases |events|
  {
    if events == [] then (st, [])
    else
      var (mid, posted) := Run(st, events[..|events|-1]);
      match events[|events|-1]
      case Edit(f, v) => (UpdateField(mid, f, v), posted)
      case Send(o) =>
        var res := Submit(mid, o);
        (res.state, posted + (if res.request.Some? then [res.request.value] else []))
  }

  /** A submit of a form that passes both checks posts that form: the
      session's requests grow by exactly the current form. */
  lemma RunPostsValidSubmit(st: ContactState, events: seq<Event>, o: SendOutcome)
    requires Postable(Run(st, events).0.form)
    ensures Run(st, events + [Send(o)]).1 == Run(st, events).1 + [Run(st, events).0.form]
  {
    assert (events + [Send(o)])[..|events|] == events;
  }

  /** A submit of a form that fails a check posts nothing. */
  lemma RunSkipsInvalidSubmit(st: ContactState, events: seq<Event>, o: SendOutcome)
    requires !Postable(Run(st, events).0.form)
    ensures Run(st, events + [Send(o)]).1 == Run(st, events).1
  {
    assert (events + [Send(o)])[..|events|] == events;
  }

  /** From the page's initial state, no status line is shown until the
      first submit. */
  lemma NoStatusBeforeFirstSubmit(events: seq<Event>)
    requires Submits(events) == 0
    ensures StatusLine(Run(Initial, events).0.status) == None
  {
  }

  /** One more event: an edit updates the session's state as
      `handleInputChange` does, and a submit moves it as `handleSubmit` does. */
  lemma RunStep(st: ContactState, events: seq<Event>, e: Event)
    ensures e.Edit? ==> Run(st, events + [e]).0 == UpdateField(Run(st, events).0, e.field, e.value)
    ensures e.Send? ==> Run(st, events + [e]).0 == Submit(Run(st, events).0, e.outcome).state
  {
    assert (events + [e])[..|events|] == events;
  }

  /** Filling in the three fields from the initial state and submitting
      posts exactly what was typed, once; an ok response then clears the
      form. */
  lemma RunFillAndSend(n: string, e: string, m: string, o: SendOutcome)
    requires n != "" && m != "" && EmailPattern.Characterised(e)
    ensures Run(Initial, [Edit(Name, n), Edit(Email, e), Edit(Message, m), Send(o)]).1 == [Form(n, e, m)]
    ensures o == ResponseOk ==>
      Run(Initial, [Edit(Name, n), Edit(Email, e), Edit(Message, m), Send(o)]).0 == ContactState(EmptyForm, MessageSent)
  {
    var e1 := [Edit(Name, n)];
    var e2 := e1 + [Edit(Email, e)];
    var e3 := e2 + [Edit(Message, m)];
    var e4 := e3 + [Send(o)];
    assert e4 == [Edit(Name, n), Edit(Email, e), Edit(Message, m), Send(o)];
    assert e1[..0] == [];
    assert e2[..1] == e1;
    assert e3[..2] == e2;
    assert e4[..3] == e3;
    assert Run(Initial, e1) == (ContactState(Form(n, "", ""), ""), []);
    assert Run(Initial, e2) == (ContactState(Form(n, e, ""), ""), []);
    assert Run(Initial, e3) == (ContactState(Form(n, e, m), ""), []);
  }
}

=== FILE: email_pattern.dfy ===
/**
 The contact form's e-mail check: the regular expression
 `^[^\s@]+@[^\s@]+\.[^\s@]+$` matched against the whole field.

 Three views of the same language are given and proved equal:
 - `ValidateEmail`, executable: a left-to-right scanner whose states follow
   the pattern's pieces;
 - `MatchesPattern`, the regular expression read literally: concatenation is
   an existential split, `+` is "one or more";
 - `Characterised`, the plain-words description: `local "@" domain`, both
   parts free of `@` and whitespace, `local` non-empty, and a `.` strictly
   inside `domain`.
 */
module EmailPattern {

  /** The ECMAScript `\s` class: WhiteSpace and LineTerminator code points
      (tab, line feed, vertical tab, form feed, carriage return, space,
      no-break space, the Unicode Zs separators, line and paragraph
      separators, and the byte-order mark). */
  predicate IsSpace(c: char) {
    var n := c as int;
    || (0x09 <= n <= 0x0D)
    || n == 0x20 || n == 0xA0 || n == 0x1680
    || (0x2000 <= n <= 0x200A)
    || n == 0x2028 || n == 0x2029 || n == 0x202F || n == 0x205F
    || n == 0x3000 || n == 0xFEFF
  }

  /** The character class `[^\s@]`. */
  predicate IsAddrChar(c: char) {
    !IsSpace(c) && c != '@'
  }

  predicate AllAddrChars(s: string) {
    forall i :: 0 <= i < |s| ==> IsAddrChar(s[i])
  }

  /** A `.` that is neither the first nor the last character of `d`. */
  predicate HasInnerDot(d: string) {
    exists k :: 0 < k < |d| - 1 && d[k] == '.'
  }

  // ---------------------------------------------------------------------
  // The regular expression, read literally

  /** `[^\s@]+` */
  ghost predicate MatchesPlus(s: string) {
    |s| >= 1 && AllAddrChars(s)
  }

  /** `[^\s@]+\.[^\s@]+` */
  ghost predicate MatchesDomain(d: string) {
    exists k :: 0 <= k < |d| && d[k] == '.' && MatchesPlus(d[..k]) && MatchesPlus(d[k+1..])
  }

  /** `^[^\s@]+@[^\s@]+\.[^\s@]+$` */
  ghost predicate MatchesPattern(s: string) {
    exists i :: 0 <= i < |s| && s[i] == '@' && MatchesPlus(s[..i]) && MatchesDomain(s[i+1..])
  }

  // ---------------------------------------------------------------------
  // The plain-words description

  /** `s` splits at index `i` into `local "@" domain` with neither part
      holding an `@` or whitespace. */
  ghost predicate SplitsAt(s: string, i: int) {
    0 <= i < |s| && s[i] == '@' && AllAddrChars(s[..i]) && AllAddrChars(s[i+1..])
  }

  ghost predicate Characterised(s: string) {
    exists i :: SplitsAt(s, i) && i > 0 && HasInnerDot(s[i+1..])
  }

  // ---------------------------------------------------------------------
  // The scanner

  /** What the scanner has seen so far:
      Start      nothing;
      Local      one or more local characters;
      AtSign     a valid local part and the `@`;
      Domain     a non-empty domain prefix without a usable dot;
      DomainDot  a domain prefix whose last character is the first usable dot;
      Accept     a domain prefix with an inner dot: the pattern has matched;
      Reject     no continuation can match. */
  datatype ScanState = Start | Local | AtSign | Domain | DomainDot | Accept | Reject

  function Step(q: ScanState, c: char): ScanState {
    if !IsAddrChar(c) then
      if q == Local && c == '@' then AtSign else Reject
    else
      match q
      case Start => Local
      case Local => Local
      case AtSign => Domain
      case Domain => if c == '.' then DomainDot else Domain
      case DomainDot => Accept
      case Accept => Accept
      case Reject => Reject
  }

  /** The scanner's state after reading all of `s`. */
  function Scan(s: string): ScanState
    decreases |s|
  {
    if s == [] then Start else Step(Scan(s[..|s|-1]), s[|s|-1])
  }

  /** The state a prefix `p` ought to leave the scanner in, defined from
      the shape of `p` alone. */
  ghost function Expected(p: string): ScanState {
    if p == [] then Start
    else if AllAddrChars(p) then Local
    else if exists i :: SplitsAt(p, i) && i > 0 then
      var i :| SplitsAt(p, i) && i > 0;
      DomainStage(p[i+1..])
    else Reject
  }

  /** How far a domain prefix `d` has got through `[^\s@]+\.[^\s@]+`. */
  ghost function DomainStage(d: string): ScanState {
    if d == [] then AtSign
    else if HasInnerDot(d) then Accept
    else if |d| >= 2 && d[|d|-1] == '.' then DomainDot
    else Domain
  }

  /** `validateEmail` (App.js:152-155). */
  function ValidateEmail(email: string): (ok: bool)
    ensures ok <==> Characterised(email)
  {
    ScanFollowsShape(email);
    ExpectedAccept(email);
    Scan(email) == Accept
  }

  // ---------------------------------------------------------------------
  // Proofs

  /** An `@` at which a string splits is its only `@`. */
  lemma SplitUnique(s: string, i: int, j: int)
    requires SplitsAt(s, i) && 0 <= j < |s| && s[j] == '@'
    ensures i == j
  {
  }

  /** A string that splits at `i` is classified by its domain part. */
  lemma ExpectedAt(p: string, i: int)
    requires SplitsAt(p, i) && i > 0
    ensures Expected(p) == DomainStage(p[i+1..])
  {
    assert !IsAddrChar(p[i]);
    forall j | SplitsAt(p, j) ensures j == i {
      SplitUnique(p, j, i);
    }
  }

  lemma ExpectedAccept(p: string)
    ensures Expected(p) == Accept <==> Characterised(p)
  {
    if Characterised(p) {
      var i :| SplitsAt(p, i) && i > 0 && HasInnerDot(p[i+1..]);
      ExpectedAt(p, i);
    }
  }

  /** Splitting `p + [c]` at an index inside `p`, when `c` is an address
      character, is the same as splitting `p` there. */
  lemma SplitsAtExtend(p: string, c: char, i: int)
    requires 0 <= i < |p|
    ensures SplitsAt(p + [c], i) <==> SplitsAt(p, i) && IsAddrChar(c)
  {
    var p' := p + [c];
    assert p'[..i] == p[..i];
    assert p'[i+1..] == p[i+1..] + [c];
    AllAddrCharsAppend(p[i+1..], c);
  }

  lemma AllAddrCharsAppend(s: string, c: char)
    ensures AllAddrChars(s + [c]) <==> AllAddrChars(s) && IsAddrChar(c)
  {
    var s' := s + [c];
    assert s'[|s|] == c;
    assert forall k :: 0 <= k < |s| ==> s'[k] == s[k];
  }

  /** The scanner's state is exactly the state the prefix's shape calls for. */
  lemma {:induction false} ScanFollowsShape(p: string)
    ensures Scan(p) == Expected(p)
    decreases |p|
  {
    if p != [] {
      var q := p[..|p|-1];
      var c := p[|p|-1];
      assert p == q + [c];
      ScanFollowsShape(q);
      StepFollowsShape(q, c);
    }
  }

  lemma StepFollowsShape(q: string, c: char)
    ensures Step(Expected(q), c) == Expected(q + [c])
  {
    var p := q + [c];
    assert p[..|q|] == q;
    if q == [] {
      assert p == [c];
      if !IsAddrChar(c) {
        assert !AllAddrChars(p);
        assert forall i :: SplitsAt(p, i) ==> i == 0;
      }
    } else if AllAddrChars(q) {
      if IsAddrChar(c) {
        assert AllAddrChars(p);
      } else {
        assert p[|q|] == c;
        forall i | 0 <= i < |q| ensures !SplitsAt(p, i) {
          assert p[i] == q[i];
        }
        if c == '@' {
          assert p[|q|+1..] == [];
          assert SplitsAt(p, |q|);
          ExpectedAt(p, |q|);
        } else {
          assert !SplitsAt(p, |q|);
        }
      }
    } else if exists i :: SplitsAt(q, i) && i > 0 {
      var i :| SplitsAt(q, i) && i > 0;
      ExpectedAt(q, i);
      assert q[i] == '@';
      assert p[i] == '@';
      assert !AllAddrChars(p);
      assert !AllAddrChars(q[..|q|]);
      assert !SplitsAt(p, |q|);
      SplitsAtExtend(q, c, i);
      if IsAddrChar(c) {
        ExpectedAt(p, i);
        var d := q[i+1..];
        assert p[i+1..] == d + [c];
        DomainStageStep(d, c);
      } else {
        forall j | SplitsAt(p, j) && j > 0 ensures false {
          SplitsAtExtend(q, c, j);
        }
      }
    } else {
      assert !AllAddrChars(p) by {
        var k :| 0 <= k < |q| && !IsAddrChar(q[k]);
        assert p[k] == q[k];
      }
      forall j | SplitsAt(p, j) && j > 0 ensures false {
        if j < |q| {
          SplitsAtExtend(q, c, j);
        }
      }
    }
  }

  lemma DomainStageStep(d: string, c: char)
    requires IsAddrChar(c)
    requires Step(DomainStage(d), c) != Reject
    ensures Step(DomainStage(d), c) == DomainStage(d + [c])
  {
    var d' := d + [c];
    if d == [] {
      assert !HasInnerDot(d');
    } else if HasInnerDot(d) {
      var k :| 0 < k < |d| - 1 && d[k] == '.';
      assert d'[k] == '.';
    } else if |d| >= 2 && d[|d|-1] == '.' {
      assert d'[|d|-1] == '.';
    } else {
      assert !HasInnerDot(d') by {
        if k :| 0 < k < |d'| - 1 && d'[k] == '.' {
          assert d[k] == '.';
        }
      }
    }
  }

  // ---------------------------------------------------------------------
  // What the check accepts, in the three readings

  /** The domain half of the pattern, `[^\s@]+\.[^\s@]+`, accepts exactly the
      `@`- and whitespace-free strings with an inner dot. */
  lemma MatchesDomainIff(d: string)
    ensures MatchesDomain(d) <==> AllAddrChars(d) && HasInnerDot(d)
  {
    if MatchesDomain(d) {
      var k :| 0 <= k < |d| && d[k] == '.' && MatchesPlus(d[..k]) && MatchesPlus(d[k+1..]);
      forall j | 0 <= j < |d| ensures IsAddrChar(d[j]) {
        if j < k {
          assert d[..k][j] == d[j];
        } else if j > k {
          assert d[k+1..][j-k-1] == d[j];
        }
      }
    }
    if AllAddrChars(d) && HasInnerDot(d) {
      var k :| 0 < k < |d| - 1 && d[k] == '.';
      assert MatchesPlus(d[..k]);
      assert MatchesPlus(d[k+1..]);
    }
  }

  /** The regular expression, read literally, and the plain-words
      description accept the same strings. */
  lemma RegexAgreesWithCharacterisation(s: string)
    ensures MatchesPattern(s) <==> Characterised(s)
  {
    if MatchesPattern(s) {
      var i :| 0 <= i < |s| && s[i] == '@' && MatchesPlus(s[..i]) && MatchesDomain(s[i+1..]);
      MatchesDomainIff(s[i+1..]);
      assert SplitsAt(s, i) && i > 0 && HasInnerDot(s[i+1..]);
    }
    if Characterised(s) {
      var i :| SplitsAt(s, i) && i > 0 && HasInnerDot(s[i+1..]);
      MatchesDomainIff(s[i+1..]);
      assert MatchesPlus(s[..i]);
    }
  }

  /** `validateEmail` is `re.test` for the pattern. */
  lemma ValidateEmailIsRegexTest(s: string)
    ensures ValidateEmail(s) <==> MatchesPattern(s)
  {
    RegexAgreesWithCharacterisation(s);
  }

  /** The accepted strings, fact by fact: exactly one `@`, no whitespace
      anywhere, something before the `@`, and a `.` after it that is
      neither the first nor the last character of the domain. */
  lemma ValidateEmailFacts(s: string)
    ensures ValidateEmail(s) <==>
      exists i :: 0 < i < |s| && s[i] == '@'
        && (forall j :: 0 <= j < |s| && s[j] == '@' ==> j == i)
        && (forall j :: 0 <= j < |s| ==> !IsSpace(s[j]))
        && HasInnerDot(s[i+1..])
  {
    if ValidateEmail(s) {
      var i :| SplitsAt(s, i) && i > 0 && HasInnerDot(s[i+1..]);
      forall j | 0 <= j < |s| && s[j] == '@' ensures j == i {
        SplitUnique(s, i, j);
      }
      forall j | 0 <= j < |s| ensures !IsSpace(s[j]) {
        if j < i {
          assert s[..i][j] == s[j];
        } else if j > i {
          assert s[i+1..][j-i-1] == s[j];
        }
      }
    }
    if exists i :: 0 < i < |s| && s[i] == '@'
        && (forall j :: 0 <= j < |s| && s[j] == '@' ==> j == i)
        && (forall j :: 0 <= j < |s| ==> !IsSpace(s[j]))
        && HasInnerDot(s[i+1..])
    {
      var i :| 0 < i < |s| && s[i] == '@'
        && (forall j :: 0 <= j < |s| && s[j] == '@' ==> j == i)
        && (forall j :: 0 <= j < |s| ==> !IsSpace(s[j]))
        && HasInnerDot(s[i+1..]);
      assert forall j :: 0 <= j < i ==> s[..i][j] == s[j];
      var d := s[i+1..];
      forall j | 0 <= j < |d| ensures IsAddrChar(d[j]) {
        assert d[j] == s[i+1+j];
      }
      assert SplitsAt(s, i);
    }
  }

  /** For a string written as `local + "@" + domain`: the check accepts it
      exactly when `local` is non-empty, neither part holds an `@` or
      whitespace, and `domain` has an inner dot. */
  lemma ValidateEmailSplit(local: string, domain: string)
    ensures ValidateEmail(local + "@" + domain) <==>
      |local| > 0 && AllAddrChars(local) && AllAddrChars(domain) && HasInnerDot(domain)
  {
    var s := local + "@" + domain;
    var i := |local|;
    assert s[..i] == local;
    assert s[i+1..] == domain;
    assert s[i] == '@';
    if ValidateEmail(s) {
      var i' :| SplitsAt(s, i') && i' > 0 && HasInnerDot(s[i'+1..]);
      SplitUnique(s, i', i);
    }
    if |local| > 0 && AllAddrChars(local) && AllAddrChars(domain) && HasInnerDot(domain) {
      assert SplitsAt(s, i) && i > 0 && HasInnerDot(s[i+1..]);
    }
  }

  /** Addresses the check accepts. */
  lemma ValidateEmailAcceptsExamples()
    ensures ValidateEmail("a@b.c")
    ensures ValidateEmail("a@b..c")
    ensures ValidateEmail("first.last@mail.example.org")
  {
    assert "b.c"[1] == '.';
    assert "a@b.c" == "a" + "@" + "b.c";
    ValidateEmailSplit("a", "b.c");
    assert "b..c"[1] == '.';
    assert "a@b..c" == "a" + "@" + "b..c";
    ValidateEmailSplit("a", "b..c");
    assert "mail.example.org"[4] == '.';
    assert "first.last@mail.example.org" == "first.last" + "@" + "mail.example.org";
    ValidateEmailSplit("first.last", "mail.example.org");
  }

  /** Strings the check refuses: no `@`; a dot only at the domain's start
      or end; an empty local part; two `@`; a space. */
  lemma ValidateEmailRejectsExamples()
    ensures !ValidateEmail("bad")
    ensures !ValidateEmail("a@.bc")
    ensures !ValidateEmail("a@bc.")
    ensures !ValidateEmail("@b.c")
    ensures !ValidateEmail("a@b@c.d")
    ensures !ValidateEmail("a b@c.d")
  {
    assert "a@b@c.d" == "a" + "@" + "b@c.d";
    assert !IsAddrChar("b@c.d"[1]);
    ValidateEmailSplit("a", "b@c.d");
    assert "a b@c.d" == "a b" + "@" + "c.d";
    assert !IsAddrChar("a b"[1]);
    ValidateEmailSplit("a b", "c.d");
  }
}

=== FILE: project_card.dfy ===
/**
 `ProjectCard` in App.js: one repository card and its language badge. The
 badge's colour comes from a closed table of seventeen languages with a grey
 default.
 */
module ProjectCard {
  import opened Wrappers

  const DefaultColor := "#6a737d"

  /** `languageColors` (App.js:37-55). */
  const LanguageColors: map<string, string> := map[
    "JavaScript" := "#f1e05a",
    "Python"     := "#306998",
    "C"          := "#555555",
    "Cpp"        := "#f34b7d",
    "Java"       := "#b07219",
    "HTML"       := "#e34c26",
    "CSS"        := "#563d7c",
    "Assembly"   := "#6E4C13",
    "Lua"        := "#000080",
    "Ruby"       := "#701516",
    "Go"         := "#00ADD8",
    "TypeScript" := "#2b7489",
    "Rust"       := "#000000",
    "Swift"      := "#ffac45",
    "PHP"        := "#4F5D95",
    "Kotlin"     := "#F18E33",
    "Dart"       := "#00B4AB"
  ]

  /** The properties a card is rendered from. `language` is the value handed
      to the card, which may be absent (`null` in the record). */
  datatype Card = Card(key: int, title: string, description: string,
                       language: Option<string>, stars: nat, forks: nat, url: string)

  datatype Badge = Badge(text: string, color: string)

  /** `languageColors[language] || '#6a737d'`: every table colour is a
      non-empty string, so the `||` falls back only for labels outside the
      table. */
  function ColorOf(lang: string): (c: string)
    ensures lang in LanguageColors ==> c == LanguageColors[lang]
    ensures c == DefaultColor <==> lang !in LanguageColors
  {
    if lang in LanguageColors && LanguageColors[lang] != "" then LanguageColors[lang] else DefaultColor
  }

  /** `languageBadge` (App.js:36-61): no badge for an absent or empty
      language, otherwise the language as label on its table colour. */
  function BadgeOf(language: Option<string>): (b: Option<Badge>)
    ensures b.None? <==> language.None? || language.value == ""
    ensures b.Some? ==> b.value.text == language.value
    ensures b.Some? && language.value in LanguageColors ==> b.value.color == LanguageColors[language.value]
    ensures b.Some? && language.value !in LanguageColors ==> b.value.color == DefaultColor
  {
    match language
    case None => None
    case Some(l) => if l == "" then None else Some(Badge(l, ColorOf(l)))
  }

  /** Labels in the table get their own colour; `C++` is not in it. */
  lemma BadgeColorExamples()
    ensures BadgeOf(Some("Python")) == Some(Badge("Python", "#306998"))
    ensures BadgeOf(Some("Cpp")) == Some(Badge("Cpp", "#f34b7d"))
    ensures BadgeOf(Some("C++")) == Some(Badge("C++", DefaultColor))
    ensures BadgeOf(Some("Haskell")) == Some(Badge("Haskell", DefaultColor))
    ensures BadgeOf(Some("")) == None
    ensures BadgeOf(None) == None
  {
  }
}

=== FILE: project_list.dfy ===
/**
 `Projects` in App.js: the outcome of the one GET to the repositories
 endpoint becomes the list of records, and the list becomes either the
 "Loading projects..." text or one card per record, in order.
 */
module ProjectList {
  import opened Wrappers
  import opened ProjectCard

  /** The fields of a repository record the page reads. `description` and
      `language` may be `null`. */
  datatype Repo = Repo(id: int, name: string, description: Option<string>,
                       language: Option<string>, stargazersCount: nat,
                       forksCount: nat, htmlUrl: string)

  /** How the GET ended: a response with its status and, when the body
      parsed as a list of records, that list; or a rejected `fetch`. */
  datatype FetchOutcome = Response(status: int, body: Option<seq<Repo>>) | NetworkError

  /** `response.ok`: a status in the 2xx range. */
  predicate IsOk(status: int) {
    200 <= status <= 299
  }

  /** The load succeeded: an ok status and a body that parsed. */
  predicate Loaded(outcome: FetchOutcome) {
    outcome.Response? && IsOk(outcome.status) && outcome.body.Some?
  }

  const Placeholder := "No description available"

  /** The language value `Cpp` and the label shown in its place. */
  const CppToken := "Cpp"
  const CppLabel := "C++"

  /** `fetchProjects` (App.js:86-101): the list that `setProjects` receives.
      A non-ok status throws before the body is read; a network failure or
      an unparsable body is caught; every failure leaves the empty list. */
  function LoadProjects(outcome: FetchOutcome): (projects: seq<Repo>)
    ensures Loaded(outcome) ==> projects == outcome.body.value
    ensures !Loaded(outcome) ==> projects == []
  {
    match outcome
    case NetworkError => []
    case Response(status, body) =>
      if !IsOk(status) then []
      else match body
        case None => []
        case Some(data) => data
  }

  /** The language handed to the card (App.js:122): the value `Cpp` becomes
      `C++`, anything else, absent included, passes through. */
  function DisplayLanguage(language: Option<string>): (shown: Option<string>)
    ensures language == Some(CppToken) ==> shown == Some(CppLabel)
    ensures language != Some(CppToken) ==> shown == language
  {
    if language == Some(CppToken) then Some(CppLabel) else language
  }

  /** The card for one record (App.js:118-126). */
  function ToCard(repo: Repo): (card: Card)
    ensures card.key == repo.id && card.title == repo.name && card.url == repo.htmlUrl
    ensures card.stars == repo.stargazersCount && card.forks == repo.forksCount
    ensures card.description == (if repo.description.None? || repo.description.value == "" then Placeholder else repo.description.value)
    ensures card.language == DisplayLanguage(repo.language)
  {
    var description :=
      match repo.description
      case Some(d) => if d == "" then Placeholder else d
      case None => Placeholder;
    Card(repo.id, repo.name, description, DisplayLanguage(repo.language),
         repo.stargazersCount, repo.forksCount, repo.htmlUrl)
  }

  /** What the list area shows (App.js:113-129). */
  datatype ProjectsView = LoadingText | Cards(cards: seq<Card>)

  function View(projects: seq<Repo>): (v: ProjectsView)
    ensures v.LoadingText? <==> |projects| == 0
    ensures v.Cards? ==> |v.cards| == |projects|
    ensures v.Cards? ==> forall i :: 0 <= i < |projects| ==> v.cards[i] == ToCard(projects[i])
  {
    if |projects| == 0 then LoadingText
    else Cards(seq(|projects|, i requires 0 <= i < |projects| => ToCard(projects[i])))
  }

  /** The badge a record ends up with: the substitution first, then the
      lookup. */
  function RepoBadge(repo: Repo): (b: Option<Badge>)
    ensures b.None? <==> repo.language.None? || repo.language.value == ""
    ensures b.Some? ==> b.value.text == (if repo.language.value == CppToken then CppLabel else repo.language.value)
    ensures b.Some? && b.value.text in LanguageColors ==> b.value.color == LanguageColors[b.value.text]
    ensures b.Some? && b.value.text !in LanguageColors ==> b.value.color == DefaultColor
  {
    BadgeOf(ToCard(repo).language)
  }

  // ---------------------------------------------------------------------
  // Properties

  /** A failed load and an empty successful load look the same on the page:
      the loading text. */
  lemma FailureLooksLikeEmpty(outcome: FetchOutcome)
    requires !Loaded(outcome)
    ensures View(LoadProjects(outcome)) == View(LoadProjects(Response(200, Some([]))))
    ensures View(LoadProjects(outcome)) == LoadingText
  {
  }

  /** A successful load shows one card per record, in the provider's order. */
  lemma SuccessShowsEveryRecord(status: int, data: seq<Repo>)
    requires IsOk(status) && |data| > 0
    ensures View(LoadProjects(Response(status, Some(data)))) == Cards(seq(|data|, i requires 0 <= i < |data| => ToCard(data[i])))
  {
  }

  /** Cards of a concatenation are the concatenation of the cards: the
      mapping works record by record and keeps order. */
  lemma ViewDistributes(a: seq<Repo>, b: seq<Repo>)
    requires |a| > 0 && |b| > 0
    ensures View(a + b).cards == View(a).cards + View(b).cards
  {
    var ab := a + b;
    assert forall i :: 0 <= i < |a| ==> ab[i] == a[i];
    assert forall i :: |a| <= i < |ab| ==> ab[i] == b[i - |a|];
  }

  /** Records with distinct ids get distinct card keys. */
  lemma DistinctIdsDistinctKeys(projects: seq<Repo>)
    requires forall i, j :: 0 <= i < j < |projects| ==> projects[i].id != projects[j].id
    requires |projects| > 0
    ensures forall i, j :: 0 <= i < j < |View(projects).cards| ==> View(projects).cards[i].key != View(projects).cards[j].key
  {
  }

  /** What a card cannot tell apart: a `null`, an empty and a placeholder
      description, and a `Cpp` and a `C++` language. */
  lemma CardCollapses(repo: Repo)
    ensures ToCard(repo.(description := None)) == ToCard(repo.(description := Some("")))
    ensures ToCard(repo.(description := None)) == ToCard(repo.(description := Some(Placeholder)))
    ensures ToCard(repo.(language := Some(CppToken))) == ToCard(repo.(language := Some(CppLabel)))
  {
  }

  /** The lookup happens after the substitution, so a raw `Cpp` record is
      labelled `C++` and gets the grey default, although the table has a
      colour for `Cpp`. */
  lemma CppRecordGetsDefaultColor(repo: Repo)
    requires repo.language == Some(CppToken)
    ensures RepoBadge(repo) == Some(Badge(CppLabel, DefaultColor))
    ensures LanguageColors[CppToken] == "#f34b7d"
  {
  }

  /** The table's `Cpp` entry is never used: no card's badge is labelled
      `Cpp`, and no badge is ever coloured `#f34b7d`. */
  lemma CppEntryUnreachable(repo: Repo)
    ensures RepoBadge(repo).Some? ==> RepoBadge(repo).value.text != CppToken
    ensures RepoBadge(repo).Some? ==> RepoBadge(repo).value.color != LanguageColors[CppToken]
  {
    var b := RepoBadge(repo);
    if b.Some? {
      var t := b.value.text;
      assert t != CppToken;
      assert t in LanguageColors ==> LanguageColors[t] != "#f34b7d";
    }
  }

  /** Worked example: one record with no description and language
      `Cpp`. */
  lemma ExampleRecord()
    ensures var repo := Repo(1, "foo", None, Some("Cpp"), 3, 1, "https://x/foo");
      && View(LoadProjects(Response(200, Some([repo]))))
        == Cards([Card(1, "foo", Placeholder, Some("C++"), 3, 1, "https://x/foo")])
      && RepoBadge(repo) == Some(Badge("C++", DefaultColor))
  {
  }

  /** Worked example: a 500 response shows the loading text. */
  lemma ServerErrorExample(body: Option<seq<Repo>>)
    ensures View(LoadProjects(Response(500, body))) == LoadingText
  {
  }
}

=== FILE: wrappers.dfy ===
/** Small option type used where the source has a value that may be null or absent. */
module Wrappers {

  datatype Option<+T> = None | Some(value: T)
}
